=== FILE: README.md ===
# Banker's algorithm engine — a Dafny model

This project models the deadlock-avoidance engine of a small Banker's-algorithm
visualiser: the single `System` object of `src/System.ts`. The engine keeps a
process table (each process has a remaining `needs` vector, an `allocations`
vector and a scratch `isFinish` flag), the `available` vector, the scratch `work`
vector and safe sequence of the last check, and an event log for the UI.

- `emit` records a progress event, except `ASSIGN_RESOURCES_END`, which empties the log.
- `isSafe` is the Banker's safety algorithm. It copies `available` into `work` and
  clears every flag. It then makes full passes over the table in index order. Each
  unfinished process whose needs fit in `work` is finished and its allocations are
  added back to `work`. A pass that finishes nothing ends the loop. The verdict is
  "every process finished".
- `allocateResources` rejects a request that exceeds the process's needs or the free
  resources. Otherwise it grants the request tentatively and runs `isSafe`. It keeps
  the grant when the state is safe and reverses it exactly when it is not.

Files, one module each:

- `vectors.dfy` (`Vectors`): resource vectors as `seq<nat>`, component-wise `Le`, `Add`, `Sub`.
- `events.dfy` (`Events`): event kinds, payloads, `Emit`.
- `system_state.dfy` (`SystemState`): `Process`, `State`, the configuration setters.
- `safety.dfy` (`Safety`): the safety check, and the reference notion `SafeState`.
  A state is `SafeState` when some order of all processes is `Feasible`: replaying
  it from `available`, each process's needs fit in what is at hand at its step.
  The check's verdict is proved equal to `SafeState`. So the greedy scan is both
  sound (its safe sequence is a witness) and complete (it never misses a safe order).
- `allocation.dfy` (`Allocation`): the request handler, its tentative grant and rollback.
- `scenarios.dfy` (`Scenarios`): the repository's test configuration, and a request
  that passes validation but is refused by the safety check.

The model is functional. `State` is an immutable datatype, and each operation
returns the new state instead of mutating the singleton. Some behaviour of the code
that a reader might not expect:

- `allocateResources` emits no events of its own. `ASSIGN_RESOURCES_START` and
  `ASSIGN_RESOURCES_END` are declared (src/System.ts:35-36), but no code path emits them.
  Only `isSafe` logs.
- After a process finishes, a pass continues to the end of the table. A new pass
  starts from index 0 only after a pass that finished something (src/System.ts:129-158).
  `Safety.PassOutcome` characterises one pass, and `Safety.PassUnique` shows that the
  characterisation determines the pass.
- The front end's request `[0, 3, 4]` by `P2` (src/index.tsx:8-16) is refused by the
  availability test, because it asks for 4 units of the third category and only 3 are free.
  It never reaches the safety check (`Scenarios.FrontEndRequestRefused`).
- After a rollback the `isFinish` flags left by the failed check stay as they are.
  Only the three resource vectors are restored (`Allocation.Revoke`, `Allocation.RevokeAfterCheck`).

## Model

| member | source | states |
|---|---|---|
| `Events.Emit` | src/System.ts:111-116 | emitting `AssignResourcesEnd` leaves the log empty; any other kind adds exactly one `{kind, payload}` record at the end and keeps every earlier entry |
| `Events.EmitAllAppends` | src/System.ts:111-116 | a sequence of emits with no `AssignResourcesEnd` leaves the old log followed by exactly those events, in order |
| `Events.EmitAllKeepsOnlyAfterEnd` | src/System.ts:112-114 | after a sequence of emits, only the events after the last `AssignResourcesEnd` remain; the earlier trace is discarded |
| `SystemState.Initial` | src/System.ts:74-90 | the unconfigured engine has no processes, an empty `available`, `work` and safe sequence, and an empty log, and is well-formed |
| `SystemState.SetProcesses` | src/System.ts:92-95 | replaces the process table by the given one and changes nothing else; the state is well-formed exactly when every vector has as many categories as `available` |
| `SystemState.SetAvailableResources` | src/System.ts:97-100 | replaces `available` by the given vector and changes nothing else; well-formedness as for `SetProcesses` |
| `Safety.ClearFlags` | src/System.ts:124 | every process's `isFinish` becomes false, and names, needs and allocations are unchanged |
| `Safety.FeasibleSteps` | src/System.ts:138-145 | an order is feasible exactly when, replaying it from `available`, each process's needs are at most the running vector at its step, and the vector then grows by its allocations |
| `Safety.RunIsReclaimed` | src/System.ts:143 | after replaying an order with no repeated ids, `work` is `available` plus the allocations of exactly the processes in the order, whatever their order |
| `Safety.FinishStep` | src/System.ts:141-148 | finishing an unfinished process whose needs fit in `work` keeps the check's invariant: the flags mark exactly the ids in the sequence, the sequence has no repeats and is feasible, `work` is its replay, and one fewer process is unfinished |
| `Safety.PassPicks` | src/System.ts:132-151 | at its turn in a pass, a process outside the starting sequence is appended exactly when its needs fit in what the sequence so far gives back |
| `Safety.VisitLog` | src/System.ts:133-151 | visiting a finished process logs nothing. Visiting an unfinished one logs `MOVE_WORKVEC` with its id, the work vector as it stood and whether it fits; when it fits, `PROCESS_FINISH` with its id follows. The log only grows |
| `Safety.VisitProcess` | src/System.ts:133-151 | one step of a pass keeps the pass's invariant one index further: a process that is unfinished and fits is finished, its allocations are reclaimed and its id appended; any other process is left as it is. The events are those of `VisitLog`, taken with the work vector before the reclaim |
| `Safety.PassUnique` | src/System.ts:132-152 | a pass is determined by the sequence it starts from: two outcomes of a pass from the same sequence append the same ids |
| `Safety.ScanPass` | src/System.ts:130-152 | one pass in index order keeps the check's invariant and only appends to the safe sequence. The ids it appends are increasing, and each fitted at its turn. Every process left out did not fit at its turn, given what the earlier sequence and the ids appended below it give back. It reports "found" exactly when the sequence grew. If nothing was found, no unfinished process fits in `work` |
| `Safety.PassUntilStuck` | src/System.ts:129-158 | the outer loop terminates, after at most n+1 passes for n processes. It returns a log of what each pass appended: each entry is a pass from where the previous ones left the sequence, every pass but the last appended something, and the last appended nothing. It ends with no unfinished process whose needs fit in `work` |
| `Safety.CheckDeterministic` | src/System.ts:129-158 | two complete logs of passes over the same table from the same start are identical, so the safe sequence the check reports is fixed by `available` and the process table it runs on |
| `Safety.RunSame` | src/System.ts:138-145 | the replay reads only needs and allocations: over two tables with the same needs and allocations, whatever their names and finish flags, every order has the same replay and is feasible in both or in neither |
| `Safety.SafeSame` | src/System.ts:121-161 | whether a state is safe depends only on `available` and the processes' needs and allocations, not on their names or finish flags |
| `Safety.PassLogSame` | src/System.ts:129-152 | a log of passes over one table is a log of passes over any table with the same needs and allocations, whatever its names and finish flags |
| `Safety.CheckIgnoresNamesAndFlags` | src/System.ts:121-158 | the passes of the check, and so its safe sequence, depend only on `available` and the processes' needs and allocations: over two tables that differ only in names and finish flags they are the same |
| `Safety.FeasibleOrderHasNextStep` | src/System.ts:154-161 | greedy completeness: if some process is unfinished and a complete feasible order exists, some unfinished process already fits in what the finished ones give back |
| `Safety.StuckMeansUnsafe` | src/System.ts:154-161 | if some process is unfinished and none of the unfinished ones fits in `work`, no order of all processes is feasible |
| `Safety.VerdictMeaning` | src/System.ts:160-161 | when the loop stops, "every process finished" holds exactly when the state is safe; the safe sequence then lists every id exactly once |
| `Safety.ReportVerdict` | src/System.ts:163-173 | the check closes the log with `SEQ_FOUND` carrying the safe sequence (or `SEQ_NOT_FOUND`) and then `CHECK_SAFETY_END`, keeping everything logged before |
| `Safety.SearchOrder` | src/System.ts:122-158 | the search clears every flag, starts from `available` and an empty sequence, and logs `CHECK_SAFETY_START`. It ends with the check's invariant, no unfinished process fitting, and the sequence built by a log of passes that stops at the first pass appending nothing |
| `Safety.IsSafe` | src/System.ts:121-175 | `available` and every process's name, needs and allocations are unchanged. The verdict is "every flag set" and equals `SafeState`. A process's flag is set exactly when its id is in the safe sequence. The sequence has no repeats and is a feasible replay witness. `work` is its replay. A true verdict means the sequence lists every id. The sequence is the concatenation of what the passes appended, in a log of passes that stops at the first pass appending nothing (at most n+1 passes). The log gains `CHECK_SAFETY_START` first and the verdict and end events last |
| `Safety.IsSafeTwice` | src/System.ts:121-175 | two checks in a row, the second on the state the first left behind. The first verdict is `SafeState` of the input, and its safe sequence is the one the check's passes build. Each check leaves its trace (`CheckTrace`) after the log it started from. The second leaves `available` and the processes' names and vectors as they were, and reaches the same verdict and the same safe sequence as the first |
| `Allocation.Grant` | src/System.ts:213-218 | the tentative commit takes the request off `available` and off the process's needs, and adds it to its allocations, per category. The process keeps its name and flag. It touches no other process, the work vector, the safe sequence or the log, and the state stays well-formed |
| `Allocation.Revoke` | src/System.ts:224-229 | the rollback gives the request back to `available` and to the process's needs, and takes it off its allocations, per category. Every process keeps its name and its flag as the check left it. It touches no other process, the work vector, the safe sequence or the log |
| `Allocation.RevokeUndoesGrant` | src/System.ts:213-229 | rolling back a tentative grant gives back exactly the state before it |
| `Allocation.RevokeAfterCheck` | src/System.ts:220-231 | rolling back after the safety check restores `available` and every process's needs and allocations, whatever the check did to flags, `work`, the sequence and the log |
| `Allocation.GrantConserves` | src/System.ts:213-218 | for each category, `available` plus the sum of all allocations is the same before and after the grant |
| `Allocation.ColumnSumIsReclaimed` | src/System.ts:143 | the category total held by the first k processes (`ColumnSum`) is what the check's replay gives back once all of them have finished (`Reclaimed`) |
| `Allocation.KeepGrant` | src/System.ts:213-222 | when the grant is kept after the check, `available` has lost the request, the process's allocations gained it and its needs lost it, every other process's needs and allocations are as before, and each category's total is conserved |
| `Allocation.CheckGrant` | src/System.ts:213-231 | for an admissible request, the result is "granted" exactly when the state after the grant is safe. A granted request keeps the grant's deltas, leaves every other process's needs and allocations unchanged and conserves each category's total. A refused one restores `available` and every needs and allocations vector. Either way, the log holds the check's start event after the old log and ends with its verdict and end events (`CheckTrace`); the flags mark exactly the safe sequence; and the safe sequence is the one the check's passes build on the granted table (`CheckOrder`) |
| `Allocation.AllocateResources` | src/System.ts:195-232 | a request above the process's needs or above `available` (`Admissible`, src/System.ts:204-211) is refused and leaves the whole state unchanged, with no check run and no event logged. An admissible request is granted exactly when the state after the grant is safe. When granted, `available` drops by the request, the process's allocations rise and its needs fall by it, every other process's needs and allocations are unchanged, and `available + Σ allocations` is conserved per category. When refused, `available` and every needs and allocations vector equal their values before the call. After an admissible request the log holds the check's start after the old log and ends with its verdict and end events; the flags mark exactly the safe sequence; and the safe sequence is the one the check builds on the granted table |
| `Scenarios.SampleIsSafe` | src/test.ts:9-20 | the test's five-process, three-category table with `available = [3,3,2]` is safe, witnessed by the order 1, 3, 4, 0, 2 |
| `Scenarios.SampleFirstPass` | src/test.ts:9-20 | the first pass over the test's table finishes processes 1, 3 and 4 and nothing else: process 0 needs 7 of the first category with 3 at hand, and process 2 needs 6 with 5 at hand |
| `Scenarios.SampleLogStages` | src/test.ts:9-20 | any log of passes on the test's table from an empty sequence has built nothing, 1 3 4, or 1 3 4 0 2 |
| `Scenarios.SampleCheck` | src/test.ts:9-20 | configuring the test's table and running the safety check returns true, with the safe sequence exactly 1, 3, 4, 0, 2 |
| `Scenarios.TightRequestRolledBack` | src/System.ts:204-231 | a request that passes validation but would leave both processes short is refused by the safety check: the log starts with `CHECK_SAFETY_START` and ends with `SEQ_NOT_FOUND` and `CHECK_SAFETY_END`, and the vectors are restored |
| `Scenarios.FrontEndRequestRefused` | src/index.tsx:7-16 | with the front end's configuration, `P2`'s request `[0, 3, 4]` is within its needs but exceeds the 3 free units of the third category, so it is refused and the state, log included, is unchanged |

## Left out

- Lookup of a process by display name (src/System.ts:196-200) is not modelled. Numeric ids outside the table are also left out: the source dereferences `undefined` there. `Allocation.AllocateResources` requires `id < |processes|`. The front end asks for `P2` by name through an `assignResources` method that `System` does not define. `Scenarios.FrontEndRequestRefused` addresses `P2` by its index, 1.
- `SEQ_FOUND`'s payload is the sequence of ids, not the formatted string of names or ids (src/System.ts:165-168).
- `clone` lives in `./util`, which is not part of this model. The setters are plain value replacements. Aliasing through the singleton, and the live `events` array the getter exposes, have no counterpart in a value model.
- JavaScript `number` semantics are not modelled. Every entry is a `nat`. Every vector, and each request, has as many categories as `available` (`SystemState.WellFormed`, `|requests| == |available|`).
- The React rendering in `src/index.tsx` is not modelled. Only its configuration and request are replayed, in `Scenarios`.
- Safety.IsSafe: the contract pins the first log entry and the last two. It does not list the per-process `MOVE_WORKVEC` and `PROCESS_FINISH` events in between, which the body emits as the source does.
- Safety.ScanPass: the contract says the log only grows during a pass. The events of each visit are stated by `Safety.VisitLog` and `Safety.VisitProcess`, but the pass's contract does not list them.
- Allocation.AllocateResources: as for `Safety.IsSafe`, the check's trace is pinned by its first entry and its last two. The per-process events in between are not listed.
- Allocation.CheckGrant: likewise, the check's trace is pinned by its first entry and its last two, and the per-process events in between are not listed. The finish flags of other processes are stated through the safe sequence, not framed.

=== FILE: allocation.dfy ===
/**
 The request handler of the Banker's algorithm: validate a request against the
 process's remaining needs and the free resources, grant it tentatively, run the
 safety check, and keep the grant only if the state is still safe; otherwise
 take it back exactly.
 */
module Allocation {
  import opened Vectors
  import opened Events
  import opened SystemState
  import opened Safety

  /** The request asks for no more than the process still needs and no more than is free. */
  predicate Admissible(s: State, id: nat, requests: Vector)
    requires id < |s.processes|
  {
    Le(requests, s.processes[id].needs) && Le(requests, s.available)
  }

  /** Total of category `j` held by all processes. */
  function ColumnSum(ps: seq<Process>, j: nat): nat
    requires HasColumn(ps, j)
  {
    if ps == [] then 0 else ps[0].allocations[j] + ColumnSum(ps[1..], j)
  }

  /** Appending a process adds its category-`j` holding to the total. */
  lemma {:induction false} ColumnSumAppend(ps: seq<Process>, p: Process, j: nat)
    requires HasColumn(ps, j) && j < |p.allocations|
    ensures HasColumn(ps + [p], j)
    ensures ColumnSum(ps + [p], j) == ColumnSum(ps, j) + p.allocations[j]
    decreases |ps|
  {
    if ps != [] {
      ColumnSumAppend(ps[1..], p, j);
      assert (ps + [p])[1..] == ps[1..] + [p];
    }
  }

  /** The total held by all processes is what the safety check gives back once every
      process has finished: `ColumnSum` and `Reclaimed` over every id agree. */
  lemma {:induction false} ColumnSumIsReclaimed(ps: seq<Process>, done: set<nat>, j: nat, k: nat)
    requires k <= |ps| && HasColumn(ps, j)
    requires forall i :: 0 <= i < k ==> i in done
    ensures ColumnSum(ps[..k], j) == Reclaimed(ps, done, j, k)
  {
    if k > 0 {
      ColumnSumIsReclaimed(ps, done, j, k - 1);
      ColumnSumAppend(ps[..k - 1], ps[k - 1], j);
      assert ps[..k] == ps[..k - 1] + [ps[k - 1]];
    }
  }

  /** Changing one process's category-`j` holding changes the total by the same amount. */
  lemma {:induction false} ColumnSumUpdate(ps: seq<Process>, id: nat, p: Process, j: nat)
    requires HasColumn(ps, j) && id < |ps| && j < |p.allocations|
    ensures HasColumn(ps[id := p], j)
    ensures ColumnSum(ps[id := p], j) + ps[id].allocations[j] == ColumnSum(ps, j) + p.allocations[j]
  {
    if id > 0 {
      ColumnSumUpdate(ps[1..], id - 1, p, j);
      assert ps[id := p][1..] == ps[1..][id - 1 := p];
    }
  }

  /** The total held depends only on the allocations, not on names or finish flags. */
  lemma {:induction false} ColumnSumSameVectors(a: seq<Process>, b: seq<Process>, j: nat)
    requires SameVectors(a, b) && HasColumn(a, j)
    ensures HasColumn(b, j) && ColumnSum(a, j) == ColumnSum(b, j)
  {
    if a != [] {
      ColumnSumSameVectors(a[1..], b[1..], j);
    }
  }

  /** The tentative commit: the requested resources leave `available`, join the process's
      allocations and leave its needs. */
  function Grant(s: State, id: nat, requests: Vector): (r: State)
    requires WellFormed(s) && id < |s.processes| && Admissible(s, id, requests)
    ensures WellFormed(r) && |r.processes| == |s.processes| && |r.available| == |s.available|
    ensures forall j :: 0 <= j < |requests| ==>
              && r.available[j] + requests[j] == s.available[j]
              && r.processes[id].allocations[j] == s.processes[id].allocations[j] + requests[j]
              && r.processes[id].needs[j] + requests[j] == s.processes[id].needs[j]
    ensures r.processes[id].name == s.processes[id].name
    ensures r.processes[id].isFinish == s.processes[id].isFinish
    ensures Le(requests, r.processes[id].allocations)
    ensures forall k :: 0 <= k < |s.processes| && k != id ==> r.processes[k] == s.processes[k]
    ensures r.work == s.work && r.safeSequence == s.safeSequence && r.events == s.events
  {
    var p := s.processes[id];
    AddThenSub(p.allocations, requests);
    s.(available := Sub(s.available, requests),
       processes := s.processes[id := p.(allocations := Add(p.allocations, requests),
                                         needs := Sub(p.needs, requests))])
  }

  /** The rollback: the exact inverse of `Grant` on the three vectors it touches. */
  function Revoke(s: State, id: nat, requests: Vector): (r: State)
    requires WellFormed(s) && id < |s.processes| && Le(requests, s.processes[id].allocations)
    ensures WellFormed(r) && |r.processes| == |s.processes| && |r.available| == |s.available|
    ensures forall j :: 0 <= j < |requests| ==>
              && r.available[j] == s.available[j] + requests[j]
              && r.processes[id].allocations[j] + requests[j] == s.processes[id].allocations[j]
              && r.processes[id].needs[j] == s.processes[id].needs[j] + requests[j]
    ensures r.processes[id].name == s.processes[id].name
    ensures r.processes[id].isFinish == s.processes[id].isFinish
    ensures forall k :: 0 <= k < |s.processes| && k != id ==> r.processes[k] == s.processes[k]
    ensures forall k :: 0 <= k < |s.processes| ==> r.processes[k].isFinish == s.processes[k].isFinish
    ensures r.work == s.work && r.safeSequence == s.safeSequence && r.events == s.events
  {
    var p := s.processes[id];
    s.(available := Add(s.available, requests),
       processes := s.processes[id := p.(allocations := Sub(p.allocations, requests),
                                         needs := Add(p.needs, requests))])
  }

  /** Rolling back a grant restores the state exactly. */
  lemma RevokeUndoesGrant(s: State, id: nat, requests: Vector)
    requires WellFormed(s) && id < |s.processes| && Admissible(s, id, requests)
    ensures Revoke(Grant(s, id, requests), id, requests) == s
  {
    var p := s.processes[id];
    SubThenAdd(s.available, requests);
    SubThenAdd(p.needs, requests);
    AddThenSub(p.allocations, requests);
    assert s.processes[id := p] == s.processes;
  }

  /** Rolling back after the safety check restores every vector, whatever the check did to
      the finish flags, the work vector, the safe sequence and the log. */
  lemma RevokeAfterCheck(s: State, id: nat, requests: Vector, t: State)
    requires WellFormed(s) && id < |s.processes| && Admissible(s, id, requests)
    requires WellFormed(t) && t.available == Grant(s, id, requests).available
    requires SameVectors(t.processes, Grant(s, id, requests).processes)
    ensures Le(requests, t.processes[id].allocations)
    ensures Revoke(t, id, requests).available == s.available
    ensures SameVectors(Revoke(t, id, requests).processes, s.processes)
  {
  }

  /** Conservation: a grant moves resources from `available` to the process, so for every
      category the free amount plus the amount held by all processes is unchanged. */
  lemma GrantConserves(s: State, id: nat, requests: Vector, j: nat)
    requires WellFormed(s) && id < |s.processes| && Admissible(s, id, requests)
    requires j < |s.available|
    ensures HasColumn(s.processes, j) && HasColumn(Grant(s, id, requests).processes, j)
    ensures Grant(s, id, requests).available[j] + ColumnSum(Grant(s, id, requests).processes, j)
            == s.available[j] + ColumnSum(s.processes, j)
  {
    var g := Grant(s, id, requests);
    ColumnSumUpdate(s.processes, id, g.processes[id], j);
    assert s.processes[id := g.processes[id]] == g.processes;
  }

  /** Keeping a grant after the safety check: the vectors are those of the grant, so the
      request moved from `available` to the process, every other process needs and holds what it did and
      each category's total is conserved. */
  lemma KeepGrant(s: State, id: nat, requests: Vector, t: State)
    requires WellFormed(s) && id < |s.processes| && Admissible(s, id, requests)
    requires WellFormed(t) && t.available == Grant(s, id, requests).available
    requires SameVectors(t.processes, Grant(s, id, requests).processes)
    ensures |t.processes| == |s.processes| && |t.available| == |s.available|
    ensures forall j :: 0 <= j < |requests| ==>
              && t.available[j] + requests[j] == s.available[j]
              && t.processes[id].allocations[j] == s.processes[id].allocations[j] + requests[j]
              && t.processes[id].needs[j] + requests[j] == s.processes[id].needs[j]
    ensures forall k :: 0 <= k < |s.processes| && k != id ==>
              t.processes[k].needs == s.processes[k].needs &&
              t.processes[k].allocations == s.processes[k].allocations
    ensures forall j :: 0 <= j < |s.available| ==>
              HasColumn(t.processes, j) && HasColumn(s.processes, j) &&
              t.available[j] + ColumnSum(t.processes, j) == s.available[j] + ColumnSum(s.processes, j)
  {
    var g := Grant(s, id, requests);
    forall j | 0 <= j < |s.available|
      ensures HasColumn(t.processes, j) && HasColumn(s.processes, j)
      ensures t.available[j] + ColumnSum(t.processes, j) == s.available[j] + ColumnSum(s.processes, j)
    {
      GrantConserves(s, id, requests, j);
      ColumnSumSameVectors(g.processes, t.processes, j);
    }
  }

  /** The grant was kept: the request moved from `available` to process `id`, every other
      process holds and needs what it did, and each category's total is conserved. */
  predicate Granted(s: State, id: nat, requests: Vector, r: State)
    requires WellFormed(s) && id < |s.processes| && |requests| == |s.available|
  {
    && |r.processes| == |s.processes| && |r.available| == |s.available|
    && (forall j :: 0 <= j < |requests| ==>
          && r.available[j] + requests[j] == s.available[j]
          && j < |r.processes[id].allocations| && j < |r.processes[id].needs|
          && r.processes[id].allocations[j] == s.processes[id].allocations[j] + requests[j]
          && r.processes[id].needs[j] + requests[j] == s.processes[id].needs[j])
    && (forall k :: 0 <= k < |s.processes| && k != id ==>
          r.processes[k].needs == s.processes[k].needs &&
          r.processes[k].allocations == s.processes[k].allocations)
    && (forall j :: 0 <= j < |s.available| ==>
          HasColumn(r.processes, j) && HasColumn(s.processes, j) &&
          r.available[j] + ColumnSum(r.processes, j) == s.available[j] + ColumnSum(s.processes, j))
  }

  /** The request was refused: `available` and every process's needs and allocations are
      as they were. */
  predicate RolledBack(s: State, r: State)
  {
    && r.available == s.available && |r.processes| == |s.processes|
    && forall k :: 0 <= k < |s.processes| ==>
         r.processes[k].needs == s.processes[k].needs &&
         r.processes[k].allocations == s.processes[k].allocations
  }

  /** An admissible request: grant it tentatively, run the safety check on the result, keep
      the grant when the check finds the state safe and roll it back otherwise. The check's
      trace, flags, work vector and safe sequence stay in the state either way. */
  method CheckGrant(s: State, id: nat, requests: Vector) returns (ok: bool, r: State)
    requires WellFormed(s) && id < |s.processes| && Admissible(s, id, requests)
    ensures WellFormed(r) && |r.processes| == |s.processes| && |r.available| == |s.available|
    ensures ok <==> SafeState(Grant(s, id, requests).available, Grant(s, id, requests).processes)
    ensures ok ==> Granted(s, id, requests, r)
    ensures !ok ==> RolledBack(s, r)
    ensures CheckTrace(s.events, ok, r.safeSequence, r.events)
    ensures FlagsMark(r.processes, r.safeSequence)
    ensures CheckOrder(Grant(s, id, requests).available, Grant(s, id, requests).processes, r.safeSequence)
    ensures ok ==> CompleteOrder(r.safeSequence, |s.processes|)
  {
    var tentative := Grant(s, id, requests);
    var safe, checked;
    ghost var segs;
    safe, checked, segs := IsSafe(tentative);
    if safe {
      KeepGrant(s, id, requests, checked);
      return true, checked;
    }
    RevokeAfterCheck(s, id, requests, checked);
    r := Revoke(checked, id, requests);
    assert r.events == checked.events && r.safeSequence == checked.safeSequence;
    ok := false;
  }

  /** Handles a request of process `id`; `ok` tells whether it was granted and `r` is the
      state afterwards. A request that fails validation changes nothing and logs nothing;
      an admissible one leaves the safety check's trace, flags and safe sequence behind. */
  method AllocateResources(s: State, id: nat, requests: Vector) returns (ok: bool, r: State)
    requires WellFormed(s) && id < |s.processes| && |requests| == |s.available|
    ensures WellFormed(r) && |r.processes| == |s.processes| && |r.available| == |s.available|
    ensures !Admissible(s, id, requests) ==> !ok && r == s
    ensures Admissible(s, id, requests) ==>
              (ok <==> SafeState(Grant(s, id, requests).available, Grant(s, id, requests).processes))
    ensures ok ==> Granted(s, id, requests, r)
    ensures !ok ==> RolledBack(s, r)
    ensures Admissible(s, id, requests) ==>
              && CheckTrace(s.events, ok, r.safeSequence, r.events)
              && FlagsMark(r.processes, r.safeSequence)
              && CheckOrder(Grant(s, id, requests).available, Grant(s, id, requests).processes, r.safeSequence)
  {
    if !Le(requests, s.processes[id].needs) {
      return false, s;
    }
    if !Le(requests, s.available) {
      return false, s;
    }
    ok, r := CheckGrant(s, id, requests);
  }
}

=== FILE: events.dfy ===
/**
 The event log: the ordered trace of progress events the engine reports to its
 observer. One kind, `AssignResourcesEnd`, is a control signal that empties the
 log instead of being recorded.
 */
module Events {
  import opened Vectors

  datatype EventKind =
    | CheckSafetyStart
    | MoveWorkVec
    | ProcessFinish
    | SeqFound
    | SeqNotFound
    | CheckSafetyEnd
    | AssignResourcesStart
    | AssignResourcesEnd

  /** Kind-specific payload; `NoPayload` stands for the omitted one. */
  datatype Payload =
    | NoPayload
    | WorkMove(id: nat, work: Vector, executable: bool)
    | FinishedId(id: nat)
    | SafeOrder(ids: seq<nat>)

  datatype Event = Event(kind: EventKind, payload: Payload)

  type Log = seq<Event>

  /** Records one event, or empties the log when the event is `AssignResourcesEnd`. */
  function Emit(log: Log, kind: EventKind, payload: Payload): (r: Log)
    ensures kind == AssignResourcesEnd ==> r == []
    ensures kind != AssignResourcesEnd ==>
              |r| == |log| + 1 && log <= r && r[|log|] == Event(kind, payload)
  {
    if kind == AssignResourcesEnd then [] else log + [Event(kind, payload)]
  }

  /** Emits every event of `trace`, first to last. */
  function EmitAll(log: Log, trace: seq<Event>): Log
    decreases |trace|
  {
    if trace == [] then log
    else EmitAll(Emit(log, trace[0].kind, trace[0].payload), trace[1..])
  }

  /** A trace without the clearing kind is recorded verbatim after what was logged before. */
  lemma {:induction false} EmitAllAppends(log: Log, trace: seq<Event>)
    requires forall k :: 0 <= k < |trace| ==> trace[k].kind != AssignResourcesEnd
    ensures EmitAll(log, trace) == log + trace
    decreases |trace|
  {
    if trace != [] {
      EmitAllAppends(log + [trace[0]], trace[1..]);
      assert log + [trace[0]] + trace[1..] == log + trace;
    }
  }

  /** Once the clearing kind is emitted, only the events after its last occurrence survive. */
  lemma {:induction false} EmitAllKeepsOnlyAfterEnd(log: Log, trace: seq<Event>, k: nat)
    requires k < |trace| && trace[k].kind == AssignResourcesEnd
    requires forall m :: k < m < |trace| ==> trace[m].kind != AssignResourcesEnd
    ensures EmitAll(log, trace) == trace[k + 1..]
    decreases |trace|
  {
    if k == 0 {
      EmitAllAppends([], trace[1..]);
    } else {
      EmitAllKeepsOnlyAfterEnd(Emit(log, trace[0].kind, trace[0].payload), trace[1..], k - 1);
      assert trace[1..][k..] == trace[k + 1..];
    }
  }
}

=== FILE: safety.dfy ===
/**
 The safety check of the Banker's algorithm.

 `IsSafe` is the engine's procedure: repeated full passes over the process table
 in index order, finishing every unfinished process whose needs fit in the work
 vector, until a pass finishes nothing. `SafeState` is the independent reference:
 some order of all processes lets each one in turn obtain its remaining needs from
 what is available plus what the processes before it gave back. The two agree.
 */
module Safety {
  import opened Vectors
  import opened Events
  import opened SystemState

  /** Every id in `order` names a process of a table of `n`. */
  predicate InRange(order: seq<nat>, n: nat)
  {
    forall k :: 0 <= k < |order| ==> order[k] < n
  }

  /** No id occurs twice in `order`: each id is absent from the ids before it
      (see `DistinctSteps` for the pairwise reading). */
  predicate Distinct(order: seq<nat>)
    decreases |order|
  {
    order == [] ||
    (Distinct(order[..|order| - 1]) && order[|order| - 1] !in order[..|order| - 1])
  }

  /** `Distinct` says exactly that any two positions of `order` hold different ids. */
  lemma {:induction false} DistinctSteps(order: seq<nat>)
    ensures Distinct(order) <==> forall a, b :: 0 <= a < b < |order| ==> order[a] != order[b]
    decreases |order|
  {
    if order != [] {
      var init := order[..|order| - 1];
      DistinctSteps(init);
      assert forall a :: 0 <= a < |init| ==> init[a] == order[a];
      assert order[|order| - 1] in init <==> exists a :: 0 <= a < |init| && init[a] == order[|order| - 1];
    }
  }

  /** Every prefix of an order without repetitions has none either. */
  lemma {:induction false} DistinctPrefix(order: seq<nat>, k: nat)
    requires Distinct(order) && k <= |order|
    ensures Distinct(order[..k])
    decreases |order|
  {
    if k < |order| {
      var init := order[..|order| - 1];
      DistinctPrefix(init, k);
      assert init[..k] == order[..k];
    } else {
      assert order[..k] == order;
    }
  }

  /** The ids of `order` are strictly increasing. */
  predicate Increasing(order: seq<nat>)
  {
    forall a, b :: 0 <= a < b < |order| ==> order[a] < order[b]
  }

  /** The ids of `order` below `i`, in their order. */
  function Below(order: seq<nat>, i: nat): (r: seq<nat>)
    ensures |r| <= |order|
    ensures forall k :: 0 <= k < |r| ==> r[k] < i
    decreases |order|
  {
    if order == [] then []
    else
      var last := order[|order| - 1];
      Below(order[..|order| - 1], i) + (if last < i then [last] else [])
  }

  /** No id is below zero. */
  lemma {:induction false} BelowZero(order: seq<nat>)
    ensures Below(order, 0) == []
    decreases |order|
  {
    if order != [] {
      BelowZero(order[..|order| - 1]);
    }
  }

  /** When every id is below the bound, `Below` keeps the whole order. */
  lemma {:induction false} BelowAll(order: seq<nat>, i: nat)
    requires forall k :: 0 <= k < |order| ==> order[k] < i
    ensures Below(order, i) == order
    decreases |order|
  {
    if order != [] {
      var init := order[..|order| - 1];
      BelowAll(init, i);
      assert order == init + [order[|order| - 1]];
    }
  }

  /** An id at or above the bound leaves `Below` as it was. */
  lemma BelowAppendAbove(order: seq<nat>, x: nat, i: nat)
    requires i <= x
    ensures Below(order + [x], i) == Below(order, i)
  {
  }

  /** In an increasing order, the ids below `order[p]` are exactly those before position `p`. */
  lemma {:induction false} BelowIsPrefix(order: seq<nat>, p: nat)
    requires Increasing(order) && p < |order|
    ensures Below(order, order[p]) == order[..p]
    decreases |order|
  {
    var init := order[..|order| - 1];
    if p == |order| - 1 {
      BelowAll(init, order[p]);
    } else {
      BelowIsPrefix(init, p);
      assert init[..p] == order[..p];
    }
  }

  /** Raising the bound by one adds `i` exactly when an increasing order contains it. */
  lemma {:induction false} BelowNext(order: seq<nat>, i: nat)
    requires Increasing(order)
    ensures Below(order, i + 1) == Below(order, i) + (if i in order then [i] else [])
    decreases |order|
  {
    if order != [] {
      var init, last := order[..|order| - 1], order[|order| - 1];
      BelowNext(init, i);
      assert order == init + [last];
      assert forall k :: 0 <= k < |init| ==> init[k] < last;
      if last < i {
        assert i !in order;
      } else if last == i {
        assert i !in init;
      } else {
        assert (i in order) == (i in init);
      }
    }
  }

  /** An id of the first part of an order without repetitions does not occur in the rest. */
  lemma DistinctApart(front: seq<nat>, back: seq<nat>, x: nat)
    requires Distinct(front + back) && x in front
    ensures x !in back
  {
    DistinctSteps(front + back);
    var p :| 0 <= p < |front| && front[p] == x;
    forall q | 0 <= q < |back|
      ensures back[q] != x
    {
      assert (front + back)[p] == x && (front + back)[|front| + q] == back[q];
    }
  }

  /** `order` lists every process id of a table of `n` exactly once. */
  predicate CompleteOrder(order: seq<nat>, n: nat)
  {
    InRange(order, n) && Distinct(order) && forall i :: 0 <= i < n ==> i in order
  }

  /** The resources at hand once the processes of `order` have run, in that order,
      and returned their allocations. */
  function Run(available: Vector, ps: seq<Process>, order: seq<nat>): (r: Vector)
    requires Shaped(ps, |available|) && InRange(order, |ps|)
    ensures |r| == |available|
    decreases |order|
  {
    if order == [] then available
    else Add(Run(available, ps, order[..|order| - 1]), ps[order[|order| - 1]].allocations)
  }

  /** Replaying `order` from `available`, each process's needs fit in the resources at
      hand at its step (see `FeasibleSteps` for the step-by-step reading). */
  predicate Feasible(available: Vector, ps: seq<Process>, order: seq<nat>)
    requires Shaped(ps, |available|) && InRange(order, |ps|)
    decreases |order|
  {
    order == [] ||
    var init := order[..|order| - 1];
    Feasible(available, ps, init) && Le(ps[order[|order| - 1]].needs, Run(available, ps, init))
  }

  /** At step `k` of replaying `order`, the process's needs fit in the resources at hand. */
  predicate StepFits(available: Vector, ps: seq<Process>, order: seq<nat>, k: nat)
    requires Shaped(ps, |available|) && InRange(order, |ps|) && k < |order|
  {
    Le(ps[order[k]].needs, Run(available, ps, order[..k]))
  }

  /** `Feasible` says exactly that at every step of the replay the process's needs fit in
      the resources at hand. */
  lemma {:induction false} FeasibleSteps(available: Vector, ps: seq<Process>, order: seq<nat>)
    requires Shaped(ps, |available|) && InRange(order, |ps|)
    ensures Feasible(available, ps, order) <==>
              forall k :: 0 <= k < |order| ==> StepFits(available, ps, order, k)
    decreases |order|
  {
    if order != [] {
      var last := |order| - 1;
      var init := order[..last];
      FeasibleSteps(available, ps, init);
      forall k | 0 <= k < last
        ensures StepFits(available, ps, init, k) == StepFits(available, ps, order, k)
      {
        assert init[..k] == order[..k];
      }
      assert StepFits(available, ps, order, last) == Le(ps[order[last]].needs, Run(available, ps, init));
    }
  }

  /** The reference meaning of "safe": some order of all processes is feasible. */
  ghost predicate SafeState(available: Vector, ps: seq<Process>)
    requires Shaped(ps, |available|)
  {
    exists order :: CompleteOrder(order, |ps|) && Feasible(available, ps, order)
  }

  /** The set of ids occurring in `order`. */
  function Elements(order: seq<nat>): (r: set<nat>)
    ensures forall x :: x in r <==> x in order
    decreases |order|
  {
    if order == [] then {}
    else
      var init := order[..|order| - 1];
      assert order == init + [order[|order| - 1]];
      Elements(init) + {order[|order| - 1]}
  }

  /** Category-`j` resources held by those of the first `k` processes whose ids are in `done`. */
  function Reclaimed(ps: seq<Process>, done: set<nat>, j: nat, k: nat): nat
    requires k <= |ps| && HasColumn(ps, j)
  {
    if k == 0 then 0
    else Reclaimed(ps, done, j, k - 1) + (if k - 1 in done then ps[k - 1].allocations[j] else 0)
  }

  lemma {:induction false} ReclaimedMonotone(ps: seq<Process>, a: set<nat>, b: set<nat>, j: nat, k: nat)
    requires k <= |ps| && HasColumn(ps, j) && a <= b
    ensures Reclaimed(ps, a, j, k) <= Reclaimed(ps, b, j, k)
  {
    if k > 0 {
      ReclaimedMonotone(ps, a, b, j, k - 1);
    }
  }

  lemma {:induction false} ReclaimedNothing(ps: seq<Process>, j: nat, k: nat)
    requires k <= |ps| && HasColumn(ps, j)
    ensures Reclaimed(ps, {}, j, k) == 0
  {
    if k > 0 {
      ReclaimedNothing(ps, j, k - 1);
    }
  }

  lemma {:induction false} ReclaimedInsert(ps: seq<Process>, a: set<nat>, x: nat, j: nat, k: nat)
    requires k <= |ps| && HasColumn(ps, j) && x !in a
    ensures Reclaimed(ps, a + {x}, j, k) == Reclaimed(ps, a, j, k) + (if x < k then ps[x].allocations[j] else 0)
  {
    if k > 0 {
      ReclaimedInsert(ps, a, x, j, k - 1);
    }
  }

  /** Replaying an order without repetitions gives back exactly the allocations of the
      processes it contains, whatever their order. */
  lemma {:induction false} RunIsReclaimed(available: Vector, ps: seq<Process>, order: seq<nat>, j: nat)
    requires Shaped(ps, |available|) && InRange(order, |ps|) && Distinct(order) && j < |available|
    ensures HasColumn(ps, j)
    ensures Run(available, ps, order)[j] == available[j] + Reclaimed(ps, Elements(order), j, |ps|)
    decreases |order|
  {
    if order == [] {
      ReclaimedNothing(ps, j, |ps|);
    } else {
      var init, x := order[..|order| - 1], order[|order| - 1];
      assert Distinct(init) && x !in init;
      RunIsReclaimed(available, ps, init, j);
      ReclaimedInsert(ps, Elements(init), x, j, |ps|);
    }
  }

  /** Running only processes that `done` also runs, without repetitions, gives back no more
      than running `done`. */
  lemma PrefixGivesBackLess(available: Vector, ps: seq<Process>, prefix: seq<nat>, done: seq<nat>)
    requires Shaped(ps, |available|)
    requires InRange(prefix, |ps|) && Distinct(prefix) && InRange(done, |ps|) && Distinct(done)
    requires forall m :: 0 <= m < |prefix| ==> prefix[m] in done
    ensures Le(Run(available, ps, prefix), Run(available, ps, done))
  {
    assert Elements(prefix) <= Elements(done);
    forall j | 0 <= j < |available|
      ensures Run(available, ps, prefix)[j] <= Run(available, ps, done)[j]
    {
      RunIsReclaimed(available, ps, prefix, j);
      RunIsReclaimed(available, ps, done, j);
      ReclaimedMonotone(ps, Elements(prefix), Elements(done), j, |ps|);
    }
  }

  /** Greedy completeness: if some process is not yet in `done`, a complete feasible order
      contains a process outside `done` whose needs already fit in what `done` gives back. */
  lemma FeasibleOrderHasNextStep(available: Vector, ps: seq<Process>, done: seq<nat>, order: seq<nat>, p: nat)
    returns (q: nat)
    requires Shaped(ps, |available|) && InRange(done, |ps|) && Distinct(done)
    requires p < |ps| && p !in done
    requires CompleteOrder(order, |ps|) && Feasible(available, ps, order)
    ensures q < |ps| && q !in done && Le(ps[q].needs, Run(available, ps, done))
  {
    assert p in order;
    var pk :| 0 <= pk < |order| && order[pk] == p;
    var k := 0;
    while k < pk && order[k] in done
      invariant k <= pk
      invariant forall m :: 0 <= m < k ==> order[m] in done
    {
      k := k + 1;
    }
    q := order[k];
    var prefix := order[..k];
    DistinctPrefix(order, k);
    FeasibleSteps(available, ps, order);
    assert StepFits(available, ps, order, k);
    PrefixGivesBackLess(available, ps, prefix, done);
    LeTransitive(ps[q].needs, Run(available, ps, prefix), Run(available, ps, done));
  }

  /** If no process outside `done` fits in what `done` gives back, and some process is
      outside `done`, no order of all processes is feasible. */
  lemma StuckMeansUnsafe(available: Vector, ps: seq<Process>, done: seq<nat>, p: nat)
    requires Shaped(ps, |available|) && InRange(done, |ps|) && Distinct(done)
    requires p < |ps| && p !in done
    requires forall i :: 0 <= i < |ps| && i !in done ==> !Le(ps[i].needs, Run(available, ps, done))
    ensures !SafeState(available, ps)
  {
    if SafeState(available, ps) {
      var order :| CompleteOrder(order, |ps|) && Feasible(available, ps, order);
      var q := FeasibleOrderHasNextStep(available, ps, done, order, p);
      assert false;
    }
  }

  /** Number of processes whose finish flag is clear. */
  function Unfinished(ps: seq<Process>): (c: nat)
    ensures c <= |ps|
    ensures c == |ps| <== forall i :: 0 <= i < |ps| ==> !ps[i].isFinish
  {
    if ps == [] then 0 else (if ps[0].isFinish then 0 else 1) + Unfinished(ps[1..])
  }

  lemma {:induction false} FinishOne(ps: seq<Process>, i: nat)
    requires i < |ps| && !ps[i].isFinish
    ensures Unfinished(ps[i := ps[i].(isFinish := true)]) + 1 == Unfinished(ps)
  {
    if i > 0 {
      FinishOne(ps[1..], i - 1);
      assert ps[i := ps[i].(isFinish := true)][1..] == ps[1..][i - 1 := ps[i].(isFinish := true)];
    }
  }

  /** Clears every finish flag, leaving names and vectors alone. */
  function ClearFlags(ps: seq<Process>): (r: seq<Process>)
    ensures SameVectors(r, ps)
    ensures forall i :: 0 <= i < |r| ==> !r[i].isFinish
  {
    seq(|ps|, i requires 0 <= i < |ps| => ps[i].(isFinish := false))
  }

  /** What the safety check knows midway: `procs` are the processes of `s` with the flags of
      exactly the ids in `sq` set, `sq` is a feasible order without repetitions, and `work`
      is what replaying `sq` leaves at hand. */
  predicate Progress(s: State, procs: seq<Process>, sq: seq<nat>, work: Vector)
    requires WellFormed(s)
  {
    && SameVectors(procs, s.processes)
    && (forall i :: 0 <= i < |procs| ==> (procs[i].isFinish <==> i in sq))
    && InRange(sq, |s.processes|) && Distinct(sq)
    && |sq| + Unfinished(procs) == |s.processes|
    && Feasible(s.available, s.processes, sq)
    && work == Run(s.available, s.processes, sq)
  }

  /** Finishing an unfinished process whose needs fit in `work`, and reclaiming its
      allocations, keeps `Progress` and lengthens the safe sequence by that id. */
  lemma {:induction false} FinishStep(s: State, procs: seq<Process>, sq: seq<nat>, work: Vector, i: nat)
    requires WellFormed(s) && Progress(s, procs, sq, work)
    requires i < |procs| && !procs[i].isFinish && Le(procs[i].needs, work)
    ensures Progress(s, procs[i := procs[i].(isFinish := true)], sq + [i], Add(work, procs[i].allocations))
  {
    var ps := s.processes;
    var procs' := procs[i := procs[i].(isFinish := true)];
    var sq' := sq + [i];
    assert i !in sq;
    FinishOne(procs, i);
    assert SameVectors(procs', ps);
    assert InRange(sq', |ps|);
    assert Distinct(sq');
    assert sq'[..|sq|] == sq;
    assert Run(s.available, ps, sq') == Add(work, procs[i].allocations);
    assert Feasible(s.available, ps, sq');
  }

  /** None of the first `i` processes is both unfinished and able to obtain its needs from `work`. */
  predicate NoneFits(procs: seq<Process>, work: Vector, i: nat)
    requires i <= |procs|
  {
    forall k :: 0 <= k < i && !procs[k].isFinish ==> !Le(procs[k].needs, work)
  }

  /** What one pass in index order, started with safe sequence `before`, appends: the ids
      `added`. They are increasing and each fitted at its turn (the whole sequence stays
      feasible). Every process still outside the sequence did not fit at its turn, when the
      resources at hand were those given back by `before` and by the ids appended below it. */
  predicate PassOutcome(available: Vector, ps: seq<Process>, before: seq<nat>, added: seq<nat>)
    requires Shaped(ps, |available|)
  {
    && InRange(before, |ps|) && InRange(before + added, |ps|) && Distinct(before + added)
    && Feasible(available, ps, before + added)
    && Increasing(added)
    && forall i :: 0 <= i < |ps| && i !in before + added ==>
         !Le(ps[i].needs, Run(available, ps, before + Below(added, i)))
  }

  /** `PassOutcome` from its parts, for a pass from the empty sequence. */
  lemma FirstPassOutcome(available: Vector, ps: seq<Process>, added: seq<nat>)
    requires Shaped(ps, |available|) && InRange(added, |ps|) && Distinct(added)
    requires Feasible(available, ps, added) && Increasing(added)
    requires forall i :: 0 <= i < |ps| && i !in added ==> !Le(ps[i].needs, Run(available, ps, Below(added, i)))
    ensures PassOutcome(available, ps, [], added)
  {
    assert [] + added == added;
    forall i | 0 <= i < |ps| && i !in [] + added
      ensures !Le(ps[i].needs, Run(available, ps, [] + Below(added, i)))
    {
      assert [] + Below(added, i) == Below(added, i);
    }
  }

  /** A pass in progress, at index `i`: the ids appended so far are increasing and below `i`,
      and each process before `i` left out of the sequence did not fit at its turn. */
  predicate PassSoFar(available: Vector, ps: seq<Process>, before: seq<nat>, added: seq<nat>, i: nat)
    requires Shaped(ps, |available|) && InRange(before, |ps|) && i <= |ps|
  {
    && Increasing(added)
    && (forall k :: 0 <= k < |added| ==> added[k] < i)
    && forall j :: 0 <= j < i && j !in before + added ==>
         !Le(ps[j].needs, Run(available, ps, before + Below(added, j)))
  }

  /** Appending process `i` at its turn keeps `PassSoFar`. */
  lemma PassTake(available: Vector, ps: seq<Process>, before: seq<nat>, added: seq<nat>, i: nat)
    requires Shaped(ps, |available|) && InRange(before, |ps|) && i < |ps|
    requires PassSoFar(available, ps, before, added, i)
    ensures PassSoFar(available, ps, before, added + [i], i + 1)
  {
    assert before + (added + [i]) == (before + added) + [i];
    forall j | 0 <= j < i + 1 && j !in before + (added + [i])
      ensures !Le(ps[j].needs, Run(available, ps, before + Below(added + [i], j)))
    {
      BelowAppendAbove(added, i, j);
    }
  }

  /** Passing over process `i`, finished already or not fitting in what the sequence so far
      gives back, keeps `PassSoFar`. */
  lemma PassSkip(available: Vector, ps: seq<Process>, before: seq<nat>, added: seq<nat>, i: nat)
    requires Shaped(ps, |available|) && InRange(before, |ps|) && InRange(before + added, |ps|) && i < |ps|
    requires PassSoFar(available, ps, before, added, i)
    requires i in before + added || !Le(ps[i].needs, Run(available, ps, before + added))
    ensures PassSoFar(available, ps, before, added, i + 1)
  {
    BelowAll(added, i);
  }

  /** At its turn in a pass, a process outside the starting sequence is appended exactly
      when its needs fit in what is at hand. */
  lemma PassPicks(available: Vector, ps: seq<Process>, before: seq<nat>, added: seq<nat>, i: nat)
    requires Shaped(ps, |available|) && PassOutcome(available, ps, before, added)
    requires i < |ps| && i !in before
    ensures i in added <==> Le(ps[i].needs, Run(available, ps, before + Below(added, i)))
  {
    if i in added {
      var p :| 0 <= p < |added| && added[p] == i;
      BelowIsPrefix(added, p);
      FeasibleSteps(available, ps, before + added);
      assert StepFits(available, ps, before + added, |before| + p);
      assert (before + added)[..|before| + p] == before + added[..p];
    }
  }

  /** Where two outcomes of a pass from the same start agree below `i`, they agree below `i + 1`. */
  lemma PassAgreesNext(available: Vector, ps: seq<Process>, before: seq<nat>, a: seq<nat>, b: seq<nat>, i: nat)
    requires Shaped(ps, |available|) && i < |ps|
    requires PassOutcome(available, ps, before, a) && PassOutcome(available, ps, before, b)
    requires Below(a, i) == Below(b, i)
    ensures Below(a, i + 1) == Below(b, i + 1)
  {
    BelowNext(a, i);
    BelowNext(b, i);
    if i in before {
      DistinctApart(before, a, i);
      DistinctApart(before, b, i);
    } else {
      PassPicks(available, ps, before, a, i);
      PassPicks(available, ps, before, b, i);
    }
  }

  /** Two outcomes of a pass from the same start agree below every index. */
  lemma {:induction false} PassAgreesBelow(available: Vector, ps: seq<Process>, before: seq<nat>,
                                           a: seq<nat>, b: seq<nat>, i: nat)
    requires Shaped(ps, |available|) && i <= |ps|
    requires PassOutcome(available, ps, before, a) && PassOutcome(available, ps, before, b)
    ensures Below(a, i) == Below(b, i)
  {
    if i == 0 {
      BelowZero(a);
      BelowZero(b);
    } else {
      PassAgreesBelow(available, ps, before, a, b, i - 1);
      PassAgreesNext(available, ps, before, a, b, i - 1);
    }
  }

  /** The ids a pass appends name processes of the table. */
  lemma AddedInRange(available: Vector, ps: seq<Process>, before: seq<nat>, added: seq<nat>)
    requires Shaped(ps, |available|) && PassOutcome(available, ps, before, added)
    ensures forall k :: 0 <= k < |added| ==> added[k] < |ps|
  {
    forall k | 0 <= k < |added|
      ensures added[k] < |ps|
    {
      assert (before + added)[|before| + k] == added[k];
    }
  }

  /** A pass is determined by where it starts: two outcomes of a pass from the same safe
      sequence append the same ids. */
  lemma PassUnique(available: Vector, ps: seq<Process>, before: seq<nat>, a: seq<nat>, b: seq<nat>)
    requires Shaped(ps, |available|)
    requires PassOutcome(available, ps, before, a) && PassOutcome(available, ps, before, b)
    ensures a == b
  {
    PassAgreesBelow(available, ps, before, a, b, |ps|);
    AddedInRange(available, ps, before, a);
    AddedInRange(available, ps, before, b);
    BelowAll(a, |ps|);
    BelowAll(b, |ps|);
  }

  /** All the ids of a list of passes, in order. */
  function Flatten(segs: seq<seq<nat>>): (r: seq<nat>)
    decreases |segs|
  {
    if segs == [] then [] else Flatten(segs[..|segs| - 1]) + segs[|segs| - 1]
  }

  /** Started with safe sequence `start`, consecutive passes appended `segs[0]`, `segs[1]`, …
      in turn. */
  predicate PassLog(available: Vector, ps: seq<Process>, start: seq<nat>, segs: seq<seq<nat>>)
    requires Shaped(ps, |available|)
    decreases |segs|
  {
    segs == [] ||
    var init := segs[..|segs| - 1];
    PassLog(available, ps, start, init) && PassOutcome(available, ps, start + Flatten(init), segs[|segs| - 1])
  }

  /** A further pass extends the log of passes. */
  lemma LogPass(available: Vector, ps: seq<Process>, start: seq<nat>, segs: seq<seq<nat>>, seg: seq<nat>)
    requires Shaped(ps, |available|) && PassLog(available, ps, start, segs)
    requires PassOutcome(available, ps, start + Flatten(segs), seg)
    ensures PassLog(available, ps, start, segs + [seg])
    ensures Flatten(segs + [seg]) == Flatten(segs) + seg
  {
  }

  /** Pass `t` of a log started where the passes before it had left the sequence. */
  lemma {:induction false} PassLogStep(available: Vector, ps: seq<Process>, start: seq<nat>,
                                       segs: seq<seq<nat>>, t: nat)
    requires Shaped(ps, |available|) && PassLog(available, ps, start, segs) && t < |segs|
    ensures PassOutcome(available, ps, start + Flatten(segs[..t]), segs[t])
    decreases |segs|
  {
    var init := segs[..|segs| - 1];
    if t < |segs| - 1 {
      PassLogStep(available, ps, start, init, t);
      assert init[..t] == segs[..t];
    }
  }

  /** Two logs of passes from the same start that agree on their first `t` passes agree on
      pass `t` as well. */
  lemma LogsAgreeStep(available: Vector, ps: seq<Process>, start: seq<nat>,
                      a: seq<seq<nat>>, b: seq<seq<nat>>, t: nat)
    requires Shaped(ps, |available|)
    requires PassLog(available, ps, start, a) && PassLog(available, ps, start, b)
    requires t < |a| && t < |b| && a[..t] == b[..t]
    ensures a[t] == b[t]
  {
    PassLogStep(available, ps, start, a, t);
    PassLogStep(available, ps, start, b, t);
    PassUnique(available, ps, start + Flatten(a[..t]), a[t], b[t]);
  }

  /** Two sequences that agree at each position where they agree before it, agree on their
      first `t` elements. */
  lemma {:induction false} PrefixesAgree(a: seq<seq<nat>>, b: seq<seq<nat>>, t: nat)
    requires t <= |a| && t <= |b|
    requires forall k :: 0 <= k < |a| && k < |b| && a[..k] == b[..k] ==> a[k] == b[k]
    ensures a[..t] == b[..t]
  {
    if t > 0 {
      PrefixesAgree(a, b, t - 1);
      assert a[..t] == a[..t - 1] + [a[t - 1]];
      assert b[..t] == b[..t - 1] + [b[t - 1]];
    }
  }

  /** The passes repeat until one appends nothing: every pass but the last appended
      something, and the last appended nothing. */
  predicate Stops(segs: seq<seq<nat>>)
  {
    |segs| > 0 && segs[|segs| - 1] == [] && forall t :: 0 <= t < |segs| - 1 ==> segs[t] != []
  }

  /** Two logs that each stop at their first empty pass, and that agree at each position where
      they agree before it, are equal. */
  lemma StopsAgree(a: seq<seq<nat>>, b: seq<seq<nat>>)
    requires Stops(a) && Stops(b)
    requires forall k :: 0 <= k < |a| && k < |b| && a[..k] == b[..k] ==> a[k] == b[k]
    ensures a == b
  {
    var m := if |a| <= |b| then |a| else |b|;
    PrefixesAgree(a, b, m);
    assert a[m - 1] == a[..m][m - 1] == b[..m][m - 1] == b[m - 1];
    assert |a| == m == |b|;
    assert a == a[..m] && b == b[..m];
  }

  /** The check is deterministic: from the same start, the passes over a table are the same,
      so the safe sequence is fixed by `available` and the process table. */
  lemma CheckDeterministic(available: Vector, ps: seq<Process>, start: seq<nat>,
                           a: seq<seq<nat>>, b: seq<seq<nat>>)
    requires Shaped(ps, |available|)
    requires PassLog(available, ps, start, a) && Stops(a)
    requires PassLog(available, ps, start, b) && Stops(b)
    ensures a == b
  {
    forall k | 0 <= k < |a| && k < |b| && a[..k] == b[..k]
      ensures a[k] == b[k]
    {
      LogsAgreeStep(available, ps, start, a, b, k);
    }
    StopsAgree(a, b);
  }

  /** The replay reads only needs and allocations, so two tables with the same needs and
      allocations have the same replay and the same feasible orders. */
  lemma {:induction false} RunSame(available: Vector, a: seq<Process>, b: seq<Process>, order: seq<nat>)
    requires Shaped(a, |available|) && SameDemands(a, b) && InRange(order, |a|)
    ensures Shaped(b, |available|)
    ensures Run(available, a, order) == Run(available, b, order)
    ensures Feasible(available, a, order) <==> Feasible(available, b, order)
    decreases |order|
  {
    if order != [] {
      RunSame(available, a, b, order[..|order| - 1]);
    }
  }

  /** Whether a state is safe depends only on `available` and the needs and allocations. */
  lemma SafeSame(available: Vector, a: seq<Process>, b: seq<Process>)
    requires Shaped(a, |available|) && SameDemands(a, b)
    ensures Shaped(b, |available|)
    ensures SafeState(available, a) <==> SafeState(available, b)
  {
    forall order | CompleteOrder(order, |a|)
      ensures Feasible(available, a, order) <==> Feasible(available, b, order)
    {
      RunSame(available, a, b, order);
    }
  }

  /** A pass over a table is a pass over any table with the same needs and allocations. */
  lemma PassOutcomeSame(available: Vector, a: seq<Process>, b: seq<Process>, before: seq<nat>, added: seq<nat>)
    requires Shaped(a, |available|) && SameDemands(a, b) && PassOutcome(available, a, before, added)
    ensures Shaped(b, |available|) && PassOutcome(available, b, before, added)
  {
    RunSame(available, a, b, before + added);
    forall i | 0 <= i < |b| && i !in before + added
      ensures !Le(b[i].needs, Run(available, b, before + Below(added, i)))
    {
      RunSame(available, a, b, before + Below(added, i));
    }
  }

  /** A log of passes over a table is a log over any table with the same needs and allocations. */
  lemma {:induction false} PassLogSame(available: Vector, a: seq<Process>, b: seq<Process>,
                                       start: seq<nat>, segs: seq<seq<nat>>)
    requires Shaped(a, |available|) && SameDemands(a, b) && PassLog(available, a, start, segs)
    ensures Shaped(b, |available|) && PassLog(available, b, start, segs)
    decreases |segs|
  {
    if segs != [] {
      var init := segs[..|segs| - 1];
      PassLogSame(available, a, b, start, init);
      PassOutcomeSame(available, a, b, start + Flatten(init), segs[|segs| - 1]);
    }
  }

  /** The passes of the check read only `available` and the processes' needs and allocations:
      over two tables with the same needs and allocations, whatever the names and
      finish flags, they are the same. */
  lemma CheckIgnoresNamesAndFlags(available: Vector, a: seq<Process>, b: seq<Process>,
                          segsA: seq<seq<nat>>, segsB: seq<seq<nat>>)
    requires Shaped(a, |available|) && SameDemands(a, b)
    requires PassLog(available, a, [], segsA) && Stops(segsA)
    requires Shaped(b, |available|) && PassLog(available, b, [], segsB) && Stops(segsB)
    ensures segsA == segsB
  {
    PassLogSame(available, a, b, [], segsA);
    CheckDeterministic(available, b, [], segsA, segsB);
  }

  /** `sq` is the safe sequence the check builds from an empty one: the ids appended by a log
      of passes that stops at the first pass appending nothing. */
  ghost predicate CheckOrder(available: Vector, ps: seq<Process>, sq: seq<nat>)
    requires Shaped(ps, |available|)
  {
    exists segs :: PassLog(available, ps, [], segs) && Stops(segs) && sq == Flatten(segs)
  }

  /** The state of a pass that started with safe sequence `sq` and has reached index `i`:
      the check's invariant holds, `added` are the ids appended so far, with `PassSoFar`, and
      if nothing was appended no process before `i` is both unfinished and fitting. */
  predicate ScanAt(s: State, sq: seq<nat>, procs: seq<Process>, sq': seq<nat>, work: Vector,
                   found: bool, added: seq<nat>, i: nat)
    requires WellFormed(s)
  {
    && i <= |s.processes| && InRange(sq, |s.processes|)
    && Progress(s, procs, sq', work)
    && sq' == sq + added && PassSoFar(s.available, s.processes, sq, added, i)
    && (found <==> added != [])
    && (!found ==> NoneFits(procs, work, i))
  }

  /** Finishing process `i`, which fits, and reclaiming its allocations moves a pass to `i + 1`. */
  lemma ScanTake(s: State, sq: seq<nat>, procs: seq<Process>, sq': seq<nat>, work: Vector,
                 found: bool, added: seq<nat>, i: nat)
    requires WellFormed(s) && i < |s.processes| && ScanAt(s, sq, procs, sq', work, found, added, i)
    requires !procs[i].isFinish && Le(procs[i].needs, work)
    ensures ScanAt(s, sq, procs[i := procs[i].(isFinish := true)], sq' + [i],
                   Add(work, procs[i].allocations), true, added + [i], i + 1)
  {
    FinishStep(s, procs, sq', work, i);
    PassTake(s.available, s.processes, sq, added, i);
  }

  /** Passing over process `i`, finished already or not fitting, moves a pass to `i + 1`. */
  lemma ScanSkip(s: State, sq: seq<nat>, procs: seq<Process>, sq': seq<nat>, work: Vector,
                 found: bool, added: seq<nat>, i: nat)
    requires WellFormed(s) && i < |s.processes| && ScanAt(s, sq, procs, sq', work, found, added, i)
    requires procs[i].isFinish || !Le(procs[i].needs, work)
    ensures ScanAt(s, sq, procs, sq', work, found, added, i + 1)
  {
    PassSkip(s.available, s.processes, sq, added, i);
    assert !found ==> NoneFits(procs, work, i + 1);
  }

  /** The events logged when process `i` is visited with `work` at hand: nothing when it is
      already finished; otherwise the work vector as it stood and whether the process fits,
      followed, when it fits, by its finish. */
  function VisitLog(events: Log, p: Process, i: nat, work: Vector): (r: Log)
    ensures events <= r
    ensures p.isFinish ==> r == events
    ensures !p.isFinish && Le(p.needs, work) ==>
              r == events + [Event(MoveWorkVec, WorkMove(i, work, true)), Event(ProcessFinish, FinishedId(i))]
    ensures !p.isFinish && !Le(p.needs, work) ==>
              r == events + [Event(MoveWorkVec, WorkMove(i, work, false))]
  {
    if p.isFinish then events
    else
      var moved := Emit(events, MoveWorkVec, WorkMove(i, work, Le(p.needs, work)));
      assert moved == events + [Event(MoveWorkVec, WorkMove(i, work, Le(p.needs, work)))];
      if Le(p.needs, work) then
        var finished := Emit(moved, ProcessFinish, FinishedId(i));
        assert finished == moved + [Event(ProcessFinish, FinishedId(i))];
        finished
      else moved
  }

  /** The visit of process `i` during a pass: skipped when finished; finished, with its
      allocations reclaimed, when its needs fit in `work`; otherwise left unfinished. The
      events are those of `VisitLog`, with the work vector as it stood before the reclaim. */
  method VisitProcess(s: State, sq: seq<nat>, procs: seq<Process>, sq': seq<nat>, work: Vector,
                      events: Log, found: bool, ghost added: seq<nat>, i: nat)
    returns (procs2: seq<Process>, sq2: seq<nat>, work2: Vector, events2: Log, found2: bool,
             ghost added2: seq<nat>)
    requires WellFormed(s) && i < |s.processes| && ScanAt(s, sq, procs, sq', work, found, added, i)
    ensures ScanAt(s, sq, procs2, sq2, work2, found2, added2, i + 1)
    ensures events <= events2 && events2 == VisitLog(events, procs[i], i, work)
  {
    procs2, sq2, work2, found2, added2 := procs, sq', work, found, added;
    events2 := VisitLog(events, procs[i], i, work);
    if !procs[i].isFinish {
      if Le(procs[i].needs, work) {
        ScanTake(s, sq, procs, sq', work, found, added, i);
        work2 := Add(work, procs[i].allocations);
        procs2 := procs[i := procs[i].(isFinish := true)];
        found2 := true;
        sq2 := sq' + [i];
        added2 := added + [i];
      } else {
        ScanSkip(s, sq, procs, sq', work, found, added, i);
      }
    } else {
      ScanSkip(s, sq, procs, sq', work, found, added, i);
    }
  }

  /** One full pass over the process table in index order (the body of the outer loop).
      `found` tells whether the pass finished any process. */
  method ScanPass(s: State, procs: seq<Process>, sq: seq<nat>, work: Vector, events: Log)
    returns (found: bool, procs': seq<Process>, sq': seq<nat>, work': Vector, events': Log)
    requires WellFormed(s) && Progress(s, procs, sq, work)
    ensures Progress(s, procs', sq', work')
    ensures sq <= sq' && PassOutcome(s.available, s.processes, sq, sq'[|sq|..])
    ensures found <==> |sq| < |sq'|
    ensures !found ==> NoneFits(procs', work', |procs'|)
    ensures events <= events'
  {
    found := false;
    procs', sq', work', events' := procs, sq, work, events;
    ghost var added: seq<nat> := [];
    var i: nat := 0;
    while i < |procs|
      invariant i <= |procs| == |s.processes|
      invariant ScanAt(s, sq, procs', sq', work', found, added, i)
      invariant events <= events'
    {
      procs', sq', work', events', found, added :=
        VisitProcess(s, sq, procs', sq', work', events', found, added, i);
      i := i + 1;
    }
    assert sq'[|sq|..] == added;
  }

  /** The passes so far, started with safe sequence `sq`, appended `segs` in turn, each of
      them something, and led to `sq'`. */
  predicate Rounds(available: Vector, ps: seq<Process>, sq: seq<nat>, segs: seq<seq<nat>>, sq': seq<nat>)
    requires Shaped(ps, |available|)
  {
    && PassLog(available, ps, sq, segs) && sq' == sq + Flatten(segs)
    && (forall t :: 0 <= t < |segs| ==> segs[t] != [])
    && |segs| <= |sq'| - |sq|
  }

  /** Logging one more pass, from `before` to `after`: the log stays a log of passes, and a
      pass that appended something keeps `Rounds`. */
  lemma NextRound(available: Vector, ps: seq<Process>, sq: seq<nat>, segs: seq<seq<nat>>,
                  before: seq<nat>, after: seq<nat>)
    requires Shaped(ps, |available|) && Rounds(available, ps, sq, segs, before)
    requires before <= after && PassOutcome(available, ps, before, after[|before|..])
    ensures var segs' := segs + [after[|before|..]];
      && PassLog(available, ps, sq, segs') && after == sq + Flatten(segs')
      && |segs'| <= |after| - |sq| + 1
      && (forall t :: 0 <= t < |segs'| - 1 ==> segs'[t] != [])
      && (|before| < |after| ==> Rounds(available, ps, sq, segs', after))
  {
    var seg := after[|before|..];
    assert before + seg == after;
    LogPass(available, ps, sq, segs, seg);
    AppendSegment(sq, segs, before, after);
  }

  /** The bookkeeping of `NextRound` on the sequences alone. */
  lemma AppendSegment(sq: seq<nat>, segs: seq<seq<nat>>, before: seq<nat>, after: seq<nat>)
    requires before == sq + Flatten(segs) && before <= after
    requires (forall t :: 0 <= t < |segs| ==> segs[t] != []) && |segs| <= |before| - |sq|
    ensures var segs' := segs + [after[|before|..]];
      && Flatten(segs') == Flatten(segs) + after[|before|..]
      && after == sq + Flatten(segs')
      && |segs'| <= |after| - |sq| + 1
      && (forall t :: 0 <= t < |segs'| - 1 ==> segs'[t] != [])
      && (|before| < |after| ==> (forall t :: 0 <= t < |segs'| ==> segs'[t] != []) && |segs'| <= |after| - |sq|)
  {
  }

  /** Repeats full passes until one finishes nothing (the outer loop of the check).
      Starting from `procs`, `sq`, `work`, it ends in a state where no unfinished process
      can obtain its needs from `work`; `segs` lists what each pass appended. */
  method PassUntilStuck(s: State, procs: seq<Process>, sq: seq<nat>, work: Vector, events: Log)
    returns (procs': seq<Process>, sq': seq<nat>, work': Vector, events': Log, ghost segs: seq<seq<nat>>)
    requires WellFormed(s) && Progress(s, procs, sq, work)
    ensures Progress(s, procs', sq', work')
    ensures NoneFits(procs', work', |procs'|)
    ensures PassLog(s.available, s.processes, sq, segs) && sq' == sq + Flatten(segs)
    ensures Stops(segs)
    ensures |segs| <= |s.processes| - |sq| + 1
    ensures events <= events'
  {
    procs', sq', work', events' := procs, sq, work, events;
    segs := [];
    while true
      invariant Progress(s, procs', sq', work')
      invariant Rounds(s.available, s.processes, sq, segs, sq')
      invariant events <= events'
      decreases |s.processes| - |sq'|
    {
      var found;
      var before := sq';
      found, procs', sq', work', events' := ScanPass(s, procs', sq', work', events');
      NextRound(s.available, s.processes, sq, segs, before, sq');
      segs := segs + [sq'[|before|..]];
      if !found {
        break;
      }
    }
  }

  /** Before the first pass: all flags clear, nothing in the sequence, `work` a copy of `available`. */
  lemma StartProgress(s: State)
    requires WellFormed(s)
    ensures Progress(s, ClearFlags(s.processes), [], s.available)
  {
  }

  /** Every process has its finish flag set. */
  predicate AllFinished(procs: seq<Process>)
  {
    forall i :: 0 <= i < |procs| ==> procs[i].isFinish
  }

  /** After the last pass, "every process finished" is the reference verdict, and then the
      safe sequence is a complete order. */
  lemma {:induction false} VerdictMeaning(s: State, procs: seq<Process>, sq: seq<nat>, work: Vector)
    requires WellFormed(s) && Progress(s, procs, sq, work) && NoneFits(procs, work, |procs|)
    ensures AllFinished(procs) <==> SafeState(s.available, s.processes)
    ensures AllFinished(procs) ==> CompleteOrder(sq, |procs|)
  {
    if AllFinished(procs) {
      assert CompleteOrder(sq, |procs|) && Feasible(s.available, s.processes, sq);
    } else {
      var p :| 0 <= p < |procs| && !procs[p].isFinish;
      StuckMeansUnsafe(s.available, s.processes, sq, p);
    }
  }

  /** The event announcing the verdict: the safe sequence when one was found. */
  function VerdictEvent(safe: bool, sq: seq<nat>): Event
  {
    if safe then Event(SeqFound, SafeOrder(sq)) else Event(SeqNotFound, NoPayload)
  }

  /** The two closing events of a check: the verdict (with the safe sequence when one was
      found), then the end marker. */
  function ReportVerdict(log: Log, safe: bool, sq: seq<nat>): (r: Log)
    ensures log <= r && |r| == |log| + 2
    ensures r[|r| - 2] == VerdictEvent(safe, sq)
    ensures r[|r| - 1] == Event(CheckSafetyEnd, NoPayload)
  {
    var withVerdict := Emit(log, VerdictEvent(safe, sq).kind, VerdictEvent(safe, sq).payload);
    Emit(withVerdict, CheckSafetyEnd, NoPayload)
  }

  /** The log left by a check that started on log `before`: `CHECK_SAFETY_START` after
      everything logged before, and at the end the verdict (with the safe sequence `sq`
      when one was found) followed by `CHECK_SAFETY_END`. */
  predicate CheckTrace(before: Log, safe: bool, sq: seq<nat>, after: Log)
  {
    && before + [Event(CheckSafetyStart, NoPayload)] <= after && |after| >= |before| + 3
    && after[|after| - 2] == VerdictEvent(safe, sq)
    && after[|after| - 1] == Event(CheckSafetyEnd, NoPayload)
  }

  /** A process's finish flag is set exactly when its id is in the safe sequence. */
  predicate FlagsMark(procs: seq<Process>, sq: seq<nat>)
  {
    forall i :: 0 <= i < |procs| ==> (procs[i].isFinish <==> i in sq)
  }

  /** The search part of the check: clear every flag, start from `available` and an empty
      sequence, log the start, and pass over the table until a pass finishes nothing. */
  method SearchOrder(s: State)
    returns (procs: seq<Process>, sq: seq<nat>, work: Vector, events: Log, ghost segs: seq<seq<nat>>)
    requires WellFormed(s)
    ensures Progress(s, procs, sq, work) && NoneFits(procs, work, |procs|)
    ensures PassLog(s.available, s.processes, [], segs) && sq == Flatten(segs)
    ensures Stops(segs)
    ensures |segs| <= |s.processes| + 1
    ensures s.events + [Event(CheckSafetyStart, NoPayload)] <= events
  {
    procs := ClearFlags(s.processes);
    work := s.available;
    sq := [];
    events := Emit(s.events, CheckSafetyStart, NoPayload);
    StartProgress(s);
    procs, sq, work, events, segs := PassUntilStuck(s, procs, sq, work, events);
    assert [] + Flatten(segs) == Flatten(segs);
  }

  /** The Banker's safety check. `safe` is the verdict; `r` is the state afterwards;
      `segs` lists what each outer pass appended to the safe sequence. */
  method IsSafe(s: State) returns (safe: bool, r: State, ghost segs: seq<seq<nat>>)
    requires WellFormed(s)
    ensures WellFormed(r)
    ensures r.available == s.available && SameVectors(r.processes, s.processes)
    ensures safe == AllFinished(r.processes)
    ensures FlagsMark(r.processes, r.safeSequence)
    ensures InRange(r.safeSequence, |s.processes|) && Distinct(r.safeSequence)
    ensures Feasible(s.available, s.processes, r.safeSequence)
    ensures r.work == Run(s.available, s.processes, r.safeSequence)
    ensures safe ==> CompleteOrder(r.safeSequence, |s.processes|)
    ensures safe <==> SafeState(s.available, s.processes)
    ensures CheckTrace(s.events, safe, r.safeSequence, r.events)
    ensures PassLog(s.available, s.processes, [], segs) && r.safeSequence == Flatten(segs)
    ensures Stops(segs)
    ensures |segs| <= |s.processes| + 1
  {
    var procs, sq, work, events;
    procs, sq, work, events, segs := SearchOrder(s);
    VerdictMeaning(s, procs, sq, work);
    safe := AllFinished(procs);
    events := ReportVerdict(events, safe, sq);
    r := State(procs, s.available, work, sq, events);
  }

  /** Two checks in a row: the second runs on the state the first left, whose flags, work
      vector, safe sequence and log differ, yet it reaches the same verdict and the same safe
      sequence. */
  method IsSafeTwice(s: State) returns (safe1: bool, r1: State, safe2: bool, r2: State)
    requires WellFormed(s)
    ensures safe1 <==> SafeState(s.available, s.processes)
    ensures CheckOrder(s.available, s.processes, r1.safeSequence)
    ensures CheckTrace(s.events, safe1, r1.safeSequence, r1.events)
    ensures CheckTrace(r1.events, safe2, r2.safeSequence, r2.events)
    ensures r2.available == s.available && SameVectors(r2.processes, s.processes)
    ensures safe1 == safe2 && r1.safeSequence == r2.safeSequence
  {
    ghost var segs1, segs2;
    safe1, r1, segs1 := IsSafe(s);
    safe2, r2, segs2 := IsSafe(r1);
    SafeSame(s.available, r1.processes, s.processes);
    CheckIgnoresNamesAndFlags(s.available, r1.processes, s.processes, segs2, segs1);
  }
}

=== FILE: scenarios.dfy ===
/**
 Concrete configurations: the five-process, three-category table of the
 repository's own test, and a two-process request that would deadlock.
 */
module Scenarios {
  import opened Vectors
  import opened Events
  import opened SystemState
  import opened Safety
  import opened Allocation

  function SampleAvailable(): Vector
  {
    [3, 3, 2]
  }

  function SampleProcesses(): seq<Process>
  {
    [ Process(None, [7, 4, 3], [0, 1, 0], false),
      Process(None, [1, 2, 2], [2, 0, 0], false),
      Process(None, [6, 0, 0], [3, 0, 2], false),
      Process(None, [0, 1, 1], [2, 1, 1], false),
      Process(None, [4, 3, 1], [0, 0, 2], false) ]
  }

  /** The order in which the check finishes the test's processes. */
  function SampleOrder(): seq<nat>
  {
    [1, 3, 4, 0, 2]
  }

  /** Three-category comparison, component by component. */
  lemma Le3(a: Vector, b: Vector)
    requires |a| == 3 && |b| == 3 && a[0] <= b[0] && a[1] <= b[1] && a[2] <= b[2]
    ensures Le(a, b)
  {
  }

  /** Three-category sum, component by component. */
  lemma Add3(a: Vector, b: Vector)
    requires |a| == 3 && |b| == 3
    ensures Add(a, b) == [a[0] + b[0], a[1] + b[1], a[2] + b[2]]
  {
  }

  lemma SampleShaped()
    ensures Shaped(SampleProcesses(), 3)
  {
  }

  lemma SampleOrderInRange()
    ensures InRange(SampleOrder(), 5)
  {
  }

  /** The resources at hand along the replay of the sample order. */
  lemma SampleRuns()
    ensures Shaped(SampleProcesses(), 3) && InRange(SampleOrder(), 5)
    ensures Run(SampleAvailable(), SampleProcesses(), [1]) == [5, 3, 2]
    ensures Run(SampleAvailable(), SampleProcesses(), [1, 3]) == [7, 4, 3]
    ensures Run(SampleAvailable(), SampleProcesses(), [1, 3, 4]) == [7, 4, 5]
    ensures Run(SampleAvailable(), SampleProcesses(), [1, 3, 4, 0]) == [7, 5, 5]
  {
    var av, ps := SampleAvailable(), SampleProcesses();
    SampleShaped();
    SampleOrderInRange();
    var o1, o2, o3, o4: seq<nat> := [1], [1, 3], [1, 3, 4], [1, 3, 4, 0];
    assert o4[..3] == o3 && o3[..2] == o2 && o2[..1] == o1 && o1[..0] == [];
    Add3(av, ps[1].allocations);
    Add3([5, 3, 2], ps[3].allocations);
    Add3([7, 4, 3], ps[4].allocations);
    Add3([7, 4, 5], ps[0].allocations);
  }

  /** Processes 1, 3 and 4 can run in that order. */
  lemma SamplePrefixFeasible()
    ensures Shaped(SampleProcesses(), |SampleAvailable()|) && InRange([1, 3, 4], 5)
    ensures Feasible(SampleAvailable(), SampleProcesses(), [1, 3, 4])
  {
    var av, ps := SampleAvailable(), SampleProcesses();
    SampleRuns();
    var o1, o2, o3: seq<nat> := [1], [1, 3], [1, 3, 4];
    assert o3[..2] == o2 && o2[..1] == o1 && o1[..0] == [];
    Le3(ps[1].needs, av);
    assert Feasible(av, ps, o1);
    Le3(ps[3].needs, [5, 3, 2]);
    assert Feasible(av, ps, o2);
    Le3(ps[4].needs, [7, 4, 3]);
  }

  lemma SampleOrderFeasible()
    ensures Shaped(SampleProcesses(), |SampleAvailable()|) && InRange(SampleOrder(), 5)
    ensures Feasible(SampleAvailable(), SampleProcesses(), SampleOrder())
  {
    var av, ps, o := SampleAvailable(), SampleProcesses(), SampleOrder();
    SampleRuns();
    SamplePrefixFeasible();
    var o3, o4: seq<nat> := [1, 3, 4], [1, 3, 4, 0];
    assert o[..4] == o4 && o4[..3] == o3;
    Le3(ps[0].needs, [7, 4, 5]);
    assert Feasible(av, ps, o4);
    Le3(ps[2].needs, [7, 5, 5]);
  }

  lemma SampleOrderComplete()
    ensures CompleteOrder(SampleOrder(), 5)
  {
    var o := SampleOrder();
    DistinctSteps(o);
    assert o[0] == 1 && o[1] == 3 && o[2] == 4 && o[3] == 0 && o[4] == 2;
  }

  /** The test's table is safe: processes 1, 3, 4, 0, 2 can run in that order. */
  lemma SampleIsSafe()
    ensures Shaped(SampleProcesses(), |SampleAvailable()|)
    ensures SafeState(SampleAvailable(), SampleProcesses())
  {
    SampleOrderFeasible();
    SampleOrderComplete();
  }

  /** The first pass over the test's table finishes processes 1, 3 and 4: process 0 needs
      7 of the first category with 3 at hand, and process 2 needs 6 with 5 at hand. */
  lemma SampleFirstPass()
    ensures Shaped(SampleProcesses(), |SampleAvailable()|)
    ensures PassOutcome(SampleAvailable(), SampleProcesses(), [], [1, 3, 4])
  {
    SamplePrefixFeasible();
    assert Distinct([1, 3, 4]) by {
      DistinctSteps([1, 3, 4]);
    }
    SampleFirstPassLeavesOut();
    FirstPassOutcome(SampleAvailable(), SampleProcesses(), [1, 3, 4]);
  }

  /** In the first pass process 0 needs 7 of the first category, with 3 at hand. */
  lemma SampleZeroWaits()
    ensures Shaped(SampleProcesses(), |SampleAvailable()|)
    ensures !Le(SampleProcesses()[0].needs, Run(SampleAvailable(), SampleProcesses(), Below([1, 3, 4], 0)))
  {
    SampleShaped();
    BelowZero([1, 3, 4]);
    assert SampleProcesses()[0].needs[0] > SampleAvailable()[0];
  }

  /** In the first pass process 2 needs 6 of the first category, with 5 at hand once
      process 1 has finished. */
  lemma SampleTwoWaits()
    ensures Shaped(SampleProcesses(), |SampleAvailable()|)
    ensures !Le(SampleProcesses()[2].needs, Run(SampleAvailable(), SampleProcesses(), Below([1, 3, 4], 2)))
  {
    var added: seq<nat> := [1, 3, 4];
    SampleRuns();
    assert Below(added, 2) == [1] by {
      assert added[..2] == [1, 3] && [1, 3][..1] == [1] && [1][..0] == [];
    }
    assert SampleProcesses()[2].needs[0] > Run(SampleAvailable(), SampleProcesses(), [1])[0];
  }

  /** In the first pass, processes 0 and 2 do not fit at their turns. */
  lemma SampleFirstPassLeavesOut()
    ensures Shaped(SampleProcesses(), |SampleAvailable()|)
    ensures forall i :: 0 <= i < |SampleProcesses()| && i !in [1, 3, 4] ==>
              !Le(SampleProcesses()[i].needs, Run(SampleAvailable(), SampleProcesses(), Below([1, 3, 4], i)))
  {
    SampleShaped();
    forall i | 0 <= i < |SampleProcesses()| && i !in [1, 3, 4]
      ensures !Le(SampleProcesses()[i].needs, Run(SampleAvailable(), SampleProcesses(), Below([1, 3, 4], i)))
    {
      if i == 0 {
        SampleZeroWaits();
      } else {
        assert i == 2;
        SampleTwoWaits();
      }
    }
  }

  /** The second pass finishes processes 0 and 2, which completes the order. */
  lemma SampleSecondPass()
    ensures Shaped(SampleProcesses(), |SampleAvailable()|)
    ensures PassOutcome(SampleAvailable(), SampleProcesses(), [1, 3, 4], [0, 2])
  {
    SampleOrderFeasible();
    SampleOrderComplete();
    assert [1, 3, 4] + [0, 2] == SampleOrder();
  }

  /** The third pass finds every process finished and appends nothing. */
  lemma SampleLastPass()
    ensures Shaped(SampleProcesses(), |SampleAvailable()|)
    ensures PassOutcome(SampleAvailable(), SampleProcesses(), SampleOrder(), [])
  {
    SampleOrderFeasible();
    SampleOrderComplete();
    assert SampleOrder() + [] == SampleOrder();
  }

  /** Whatever passes are logged on the test's table from an empty sequence, they have
      built one of its three stages: nothing, 1 3 4, or 1 3 4 0 2. */
  lemma {:induction false} SampleLogStages(segs: seq<seq<nat>>)
    requires Shaped(SampleProcesses(), |SampleAvailable()|)
    requires PassLog(SampleAvailable(), SampleProcesses(), [], segs)
    ensures Flatten(segs) == [] || Flatten(segs) == [1, 3, 4] || Flatten(segs) == SampleOrder()
    decreases |segs|
  {
    if segs != [] {
      var av, ps := SampleAvailable(), SampleProcesses();
      var init, last := segs[..|segs| - 1], segs[|segs| - 1];
      SampleLogStages(init);
      var done := Flatten(init);
      assert [] + done == done;
      if done == [] {
        SampleFirstPass();
        PassUnique(av, ps, [], last, [1, 3, 4]);
      } else if done == [1, 3, 4] {
        SampleSecondPass();
        PassUnique(av, ps, [1, 3, 4], last, [0, 2]);
        assert [1, 3, 4] + [0, 2] == SampleOrder();
      } else {
        SampleLastPass();
        PassUnique(av, ps, SampleOrder(), last, []);
        assert SampleOrder() + [] == SampleOrder();
      }
    }
  }

  /** A log of passes on the test's table that has finished process 0 has built the whole
      order 1 3 4 0 2. */
  lemma SampleSequence(segs: seq<seq<nat>>)
    requires Shaped(SampleProcesses(), |SampleAvailable()|)
    requires PassLog(SampleAvailable(), SampleProcesses(), [], segs) && 0 in Flatten(segs)
    ensures Flatten(segs) == SampleOrder()
  {
    SampleLogStages(segs);
  }

  /** Configuring the test's table and running the safety check yields "safe", with the
      safe sequence 1 3 4 0 2. */
  method SampleCheck() returns (safe: bool, r: State)
    ensures safe
    ensures r.available == SampleAvailable() && SameVectors(r.processes, SampleProcesses())
    ensures r.safeSequence == SampleOrder()
  {
    var s := SetProcesses(SetAvailableResources(Initial(), SampleAvailable()), SampleProcesses());
    SampleIsSafe();
    ghost var segs;
    safe, r, segs := IsSafe(s);
    assert 0 in r.safeSequence;
    SampleSequence(segs);
  }

  /** The front end's configuration: three categories with `[2, 3, 3]` free and five named
      processes. */
  function FrontEndState(): State
  {
    SetProcesses(SetAvailableResources(Initial(), [2, 3, 3]), [
      Process(Some("P1"), [3, 4, 7], [2, 1, 2], false),
      Process(Some("P2"), [1, 3, 4], [4, 0, 2], false),
      Process(Some("P3"), [0, 0, 6], [4, 0, 5], false),
      Process(Some("P4"), [2, 2, 1], [2, 0, 4], false),
      Process(Some("P5"), [1, 1, 0], [3, 1, 4], false)])
  }

  /** The front end's request `[0, 3, 4]` by `P2` is within its needs but asks for 4 units of
      the third category with 3 free, so it is refused and nothing changes. */
  method FrontEndRequestRefused() returns (ok: bool, r: State)
    ensures Le([0, 3, 4], FrontEndState().processes[1].needs) && !Le([0, 3, 4], FrontEndState().available)
    ensures !ok && r == FrontEndState()
  {
    var s := FrontEndState();
    assert s.available[2] < 4;
    ok, r := AllocateResources(s, 1, [0, 3, 4]);
  }

  /** Two processes share one unit: granting process 1 its first unit would leave nothing
      free while both still need one more. */
  function TightState(): State
  {
    State([ Process(None, [1], [1], false), Process(None, [2], [0], false) ], [1], [], [], [])
  }

  /** That request passes validation but is refused by the safety check and rolled back. */
  method TightRequestRolledBack() returns (ok: bool, r: State)
    ensures Admissible(TightState(), 1, [1])
    ensures !ok
    ensures r.available == [1] && |r.processes| == 2
    ensures r.processes[0].needs == [1] && r.processes[0].allocations == [1]
    ensures r.processes[1].needs == [2] && r.processes[1].allocations == [0]
    ensures |r.events| >= 3 && r.events[0] == Event(CheckSafetyStart, NoPayload)
    ensures r.events[|r.events| - 2] == Event(SeqNotFound, NoPayload)
    ensures r.events[|r.events| - 1] == Event(CheckSafetyEnd, NoPayload)
  {
    var s := TightState();
    var g := Grant(s, 1, [1]);
    assert g.available == [0] && g.processes[0].needs == [1] && g.processes[1].needs == [1];
    assert Run(g.available, g.processes, []) == [0];
    assert g.processes[0].needs[0] > 0 && g.processes[1].needs[0] > 0;
    StuckMeansUnsafe(g.available, g.processes, [], 0);
    ok, r := AllocateResources(s, 1, [1]);
  }
}

=== FILE: system_state.dfy ===
/**
 The engine's state: the process table, the available-resources vector, the
 scratch work vector and safe sequence of the last safety check, and the event log.
 */
module SystemState {
  import opened Vectors
  import opened Events

  datatype Option<T> = None | Some(value: T)

  /** A process: an optional display name, what it still needs, what it holds, and the
      scratch flag the safety check sets once it can run to completion. */
  datatype Process = Process(name: Option<string>, needs: Vector, allocations: Vector, isFinish: bool)

  datatype State = State(
    processes: seq<Process>,
    available: Vector,
    work: Vector,
    safeSequence: seq<nat>,
    events: Log)

  /** Every process's vectors have `r` components. */
  predicate Shaped(ps: seq<Process>, r: nat)
  {
    forall i :: 0 <= i < |ps| ==> |ps[i].needs| == r && |ps[i].allocations| == r
  }

  /** Every process holds a count for resource category `j`. */
  predicate HasColumn(ps: seq<Process>, j: nat)
  {
    forall i :: 0 <= i < |ps| ==> j < |ps[i].allocations|
  }

  /** All vectors of the process table have as many components as `available`. */
  predicate WellFormed(s: State)
  {
    Shaped(s.processes, |s.available|)
  }

  /** `a` and `b` have the same needs and allocations, process by process, whatever their
      names and finish flags. */
  predicate SameDemands(a: seq<Process>, b: seq<Process>)
  {
    && |a| == |b|
    && forall i :: 0 <= i < |a| ==> a[i].needs == b[i].needs && a[i].allocations == b[i].allocations
  }

  /** `a` and `b` are the same processes, up to their finish flags. */
  predicate SameVectors(a: seq<Process>, b: seq<Process>)
  {
    SameDemands(a, b) && forall i :: 0 <= i < |a| ==> a[i].name == b[i].name
  }

  /** The state before any configuration: everything empty. */
  function Initial(): (s: State)
    ensures WellFormed(s) && s.processes == [] && s.events == []
    ensures s.available == [] && s.work == [] && s.safeSequence == []
  {
    State([], [], [], [], [])
  }

  /** Replaces the process table by (a copy of) `ps`; nothing else changes. */
  function SetProcesses(s: State, ps: seq<Process>): (r: State)
    ensures r.processes == ps
    ensures r.available == s.available && r.work == s.work
    ensures r.safeSequence == s.safeSequence && r.events == s.events
    ensures WellFormed(r) <==> Shaped(ps, |s.available|)
  {
    s.(processes := ps)
  }

  /** Replaces the available-resources vector by (a copy of) `v`; nothing else changes. */
  function SetAvailableResources(s: State, v: Vector): (r: State)
    ensures r.available == v
    ensures r.processes == s.processes && r.work == s.work
    ensures r.safeSequence == s.safeSequence && r.events == s.events
    ensures WellFormed(r) <==> Shaped(s.processes, |v|)
  {
    s.(available := v)
  }
}

=== FILE: vectors.dfy ===
/**
 Resource vectors: one non-negative count per resource category, index-aligned
 across the whole system, compared and combined component by component.
 */
module Vectors {

  type Vector = seq<nat>

  /** `a` and `b` have the same categories and every component of `a` is at most the
      matching component of `b`. */
  predicate Le(a: Vector, b: Vector)
  {
    |a| == |b| && forall i :: 0 <= i < |a| ==> a[i] <= b[i]
  }

  /** Component-wise sum. */
  function Add(a: Vector, b: Vector): (r: Vector)
    requires |a| == |b|
    ensures |r| == |a|
    ensures forall i :: 0 <= i < |r| ==> r[i] == a[i] + b[i]
  {
    seq(|a|, i requires 0 <= i < |a| => a[i] + b[i])
  }

  /** Component-wise difference, defined only when no component would go negative. */
  function Sub(a: Vector, b: Vector): (r: Vector)
    requires Le(b, a)
    ensures |r| == |a|
    ensures forall i :: 0 <= i < |r| ==> r[i] + b[i] == a[i]
  {
    seq(|a|, i requires 0 <= i < |a| => a[i] - b[i])
  }

  /** Taking back what was just added restores the original vector. */
  lemma AddThenSub(a: Vector, b: Vector)
    requires |a| == |b|
    ensures Le(b, Add(a, b))
    ensures Sub(Add(a, b), b) == a
  {
  }

  /** Giving back what was just taken restores the original vector. */
  lemma SubThenAdd(a: Vector, b: Vector)
    requires Le(b, a)
    ensures Add(Sub(a, b), b) == a
  {
  }

  lemma LeTransitive(a: Vector, b: Vector, c: Vector)
    requires Le(a, b) && Le(b, c)
    ensures Le(a, c)
  {
  }
}
